=== FILE: README.md ===
# Brake-hub sensor enclosure — parametric CSG model

The generator in `main.go` derives three 3D-printable parts from a few physical
measurements. The parts are a body that mounts in an E450 brake-rotor hub, a
cover, and a baseplate that carries an IMU board, a feather board and a battery.
The geometry itself is built by calls into the sdfx signed-distance-field library.

This project models the part of the program that sdfx does not do:

- the unit conversion and constants;
- the vertical stack-up: wall → IMU posts → feather posts and shoulders → battery → body height;
- the derived diameters: body inner diameter, lip, pocket, cover step and baseplate;
- the plan of which primitive goes where, and how the primitives are united,
  subtracted and translated.

Each sdfx primitive is an uninterpreted constructor of a syntax tree (`Csg.Solid`).
The model gives a tree two kinds of geometric meaning. The first is its nominal
vertical extent, `Csg.ZSpan`. It follows sdfx's convention that every primitive is
centred on the origin. That convention is why the program lifts each post by `PostZ/2`.
The second is the horizontal placement of translated parts: `Csg.Centres` collects
the XY offsets of a union's parts, and `Csg.OnAxis` says a translation moves its
solid only vertically, so that the solid stays on the z axis.

Modules follow the program's types:

- `Csg`: solids, constructor calls, vertical extents and horizontal placement.
- `Design`: constants and the `Board`/`Battery` records.
- `Posts`: `Board.posts`.
- `Bay`: `Battery.corners` and `Battery.shape`.
- `Shell`: `Body.init`.
- `Plate`: `Baseplate.init`.
- `Assembly`: `main`.

The package-level records that `main` mutates are immutable values here. `main`'s
assignments become the record updates in `Assembly.StackUp`.

`Ck` stops the program at the first constructor that returns an error.
`Assembly.Run` models this. It takes the library's acceptance rule as a parameter
(`lib`), walks the constructor calls in the order `main` makes them, and stops at
the first call `lib` rejects. No particular sdfx validation rule is assumed.

Facts about `main.go` that the model keeps as written:

- the corner cuts are `X − 2·CornerW + 2·wall` and `Y − 2·CornerW + 2·wall` wide (main.go:98, 100);
- the lip spans [hubDepth + wall/2, hubDepth + 3·wall/2] (main.go:125, 147);
- the baseplate's top diameter equals the body's inner diameter (main.go:222);
- the cover's step diameter is `body.Id + 0.1` (main.go:202);
- the exported body subtracts the whole baseplate (main.go:223-225);
- the stack rises strictly from the floor wall to the body's top only when both boards
  are thicker than the 5 mm post allowance (main.go:190-191; `Assembly.StackUp`,
  `Assembly.StackStrictlyRises`).

## Model

| member | source | states |
|---|---|---|
| Posts.PostCylinder | main.go:71-73 | the post is a cylinder of radius PostDia/2, on the z axis, that spans z ∈ [0, PostZ] |
| Posts.Shoulder | main.go:74-76 | the shoulder is a cylinder on the z axis whose radius is twice the post's, and it spans z ∈ [0, ShoulderZ] |
| Posts.Post | main.go:71-77 | a post is the union of the post cylinder and its shoulder, and spans z ∈ [0, max(PostZ, ShoulderZ)] |
| Posts.Posts | main.go:67-85 | a union of exactly four copies of the same post, all on z = 0, centred at the four points (±CtrsX/2, ±CtrsY/2) |
| Posts.HalfTurnSymmetric | main.go:78-80 | the set of post centres is unchanged by negating both coordinates (a half turn about the board centre) |
| Posts.CallsAreLeaves | main.go:67-85 | the constructor calls `posts` makes are exactly the primitives in its solid |
| Bay.OuterBox | main.go:96 | the block is the battery footprint plus one wall on each side, CornerZ tall |
| Bay.HCut | main.go:98 | the y-running cut leaves a CornerW-wide column at each x end; its width is positive iff CornerW < X/2 + wall; it passes clean through iff Y > 2·wall; it is as tall as the block |
| Bay.VCut | main.go:100 | the x-running cut: the same statements with x and y exchanged |
| Bay.Corners | main.go:95-105 | the corner columns are the block minus the y-running cut, then minus the x-running cut; they are centred and span z ∈ [−CornerZ/2, CornerZ/2] |
| Bay.Shape | main.go:108-112 | the battery box is centred, Z tall, and one wall smaller on each side than the corner block |
| Bay.CornerCallsAreLeaves | main.go:95-103 | the three box calls `corners` makes are exactly the primitives in its solid |
| Bay.PackCutsSound | main.go:49-54 | for the shipped battery, both cut widths are positive and both cuts pass through the block |
| Shell.LoftSegment | main.go:127-138 | the loft is on the z axis, runs from radius Od1/2 to Od2/2 and spans z ∈ [0, hubDepth/2] |
| Shell.UpperSegment | main.go:127-143 | the cylinder is on the z axis, has radius Od2/2 (the loft's top radius) and spans [hubDepth/2, Z]; its height is positive iff Z > hubDepth/2 |
| Shell.Lip | main.go:124-147 | the lip is a cylinder on the z axis that reaches 2 mm beyond the cap-end radius and spans [hubDepth + wall/2, hubDepth + 3·wall/2] |
| Shell.Pocket | main.go:151-153 | the pocket is a cylinder on the z axis with the inner radius, spanning [wall/2, Z + wall/2] |
| Shell.Outside | main.go:136-149 | the outside is (loft ∪ cylinder) ∪ lip, and spans z ∈ [0, max(Z, hubDepth + 3·wall/2)] |
| Shell.Init | main.go:122-158 | the body's solid is the outside minus the pocket; the body keeps Od1, Od2 and Z; the hub-end side wall is exactly one wall thick, whatever Id the caller supplied; the pocket leaves a floor wall/2 thick; the pocket opens through the top iff Z > hubDepth + wall |
| Shell.IdIgnoresSupplied | main.go:122-123 | two bodies that differ only in the supplied Id are identical |
| Shell.CallsAreLeaves | main.go:130-151 | the six constructor calls `init` makes are exactly the primitives in the body's solid |
| Plate.Init | main.go:170-183 | the baseplate loft is on the z axis, runs from radius Od1/2 at the bottom to Od2/2 at the top, spans z ∈ [0, wall], and keeps the record's other fields |
| Assembly.StackUp | main.go:189-197 | the IMU's top is wall + IMU thickness, and the feather shoulders stand at that height with no allowance; each post height, the battery bottom and the column top are running sums of the thicknesses below them, less the 5 mm post allowance; the cover is two walls thick; the battery sits on the feather posts; IMU posts end above the floor wall iff the IMU is thicker than 5 mm; IMU posts end below the feather shoulders; the feather shoulders are below the feather posts iff the feather is thicker than 5 mm; only the derived fields change |
| Assembly.Derive | main.go:197-222 | for any boards and battery, the body is the hub shell `Shell.Init(hubId − 5, hubId, CornerZ + wall, 90.6)`, and its re-derived inner diameter equals the reprint constant 90.6; the body ends one wall (half the cover) above the corner columns; Od1 < Od2 = hubId; the cover step is 0.1 mm wider than the inner diameter; the baseplate is `Plate.Init(Id − wall, Id, 0)`, tapering from Id − wall up to Id |
| Assembly.CoverDisc | main.go:211-213 | the outer disc is a cylinder on the z axis with radius hubOd/2, spanning [0, coverZ/2] before the final lift |
| Assembly.CoverStep | main.go:214-216 | the inner step is a cylinder on the z axis with radius coverId/2, spanning [−coverZ/2, 0] before the final lift |
| Assembly.Cover | main.go:211-218 | the cover is the union of the disc (above z = 0) and the step (below z = 0) lifted by bodyZ, so they meet at the body's top; for coverZ ≥ 0 it spans [bodyZ − coverZ/2, bodyZ + coverZ/2] |
| Assembly.PlacedBattery | main.go:204-205 | the placed battery is the battery box moved straight up by batteryBotZ + Z/2, so it spans [batteryBotZ, batteryBotZ + battery.Z] |
| Assembly.PlacedCorners | main.go:207-209 | the placed corner columns are the corner solid lifted by CornerZ/2, spanning [0, CornerZ], with the placed battery subtracted |
| Assembly.Assemble | main.go:204-225 | the baseplate is the disc ∪ feather posts ∪ IMU posts ∪ corners; the exported body is the body's solid minus that baseplate; the cover is `Cover(hubOd, coverId, coverZ, body Z)` and spans one wall either side of the body's top |
| Assembly.Main | main.go:187-225 | a run that no constructor rejects exports: the baseplate, which is the disc `Plate.Init(90.6 − wall, 90.6, 0)` ∪ feather posts ∪ IMU posts ∪ placed corner columns; the body, which is the hub shell sized by the stack (`Shell.Init(hubId − 5, hubId, CornerZ + wall, 90.6)`) minus that baseplate; and the cover `Cover(hubOd, 90.7, 2·wall, shell Z)`, which spans one wall either side of the shell's top |
| Assembly.CallOrder | main.go:130-223 | the run's 31 constructor calls come in the order the program makes them: the body's six, the battery box, the corner block and its two cuts, the cover's disc and step cylinders, the baseplate's three, then the feather's eight post calls and the IMU's eight |
| Assembly.CallGroups | main.go:130-223 | the distinct calls of a run are the union of those of its seven groups |
| Assembly.ExportedGroups | main.go:204-225 | the primitives of the exported parts are those of the body's shell, the cover, the baseplate disc, both boards' posts, the corner block and the battery box |
| Assembly.CallsAreExported | main.go:187-225 | every constructor call the run makes has its result in an exported part, and every primitive of an exported part comes from such a call |
| Assembly.Run | main.go:187-231 | the run succeeds iff the library accepts every primitive of the exported parts, and then yields those parts; otherwise it reports the first rejected call in the run's order |
| Assembly.StackStrictlyRises | main.go:189-199 | with both boards thicker than 5 mm and a battery of positive thickness: wall < IMU posts < feather shoulders < feather posts = battery bottom < CornerZ < body height |
| Assembly.BatteryBetweenPostsAndColumns | main.go:191-209 | when the feather is at least 5 mm thick (so its posts are at least as tall as its shoulders), the battery's bottom is the top of the feather posts, and its top is flush with the corner columns |
| Assembly.ShippedDimensions | main.go:187-202 | with the shipped values: heights 13, 18, 28, 36.1, 39.1; body Id 90.6 (the reprint constant); cover step 90.7; the IMU shoulder height stays 0 |

## Left out

- Signed-distance evaluation, loft interpolation and rounding inside sdfx: primitives are opaque constructors. The model does not reason about rounding radii. It gives meaning only to vertical extents, radii, and horizontal placement (translation offsets and `Csg.Centres`).
- Which arguments sdfx rejects: `Assembly.Run` takes the rule as the parameter `lib` and does not guess it.
- `render.RenderSTL` mesh export and file writing (main.go:229-231) and the `fmt.Println` of the inner diameter (main.go:227): these are I/O. `Run` returns the three solids instead.
- IEEE float64 rounding: all lengths are `real`. The equalities 90.6 and 39.1 are exact over reals only.
- Mutation of the package-level `imu`, `feather` and `battery` records (main.go:190-195): the records are immutable, and `main`'s assignments are record updates.
- Commented-out code (main.go:104, 167-168, 185, 220, 224).
- The constants `scale` and `spacing` are declared (as `Design.Scale` and `Design.Spacing`) but never used.
- The baseplate's `Z` field is never set and stays 0; it is carried through unchanged.
- The IMU's `ShoulderZ` is never set, so each IMU post carries a zero-height shoulder cylinder. Whether sdfx accepts it is up to `lib`. `Assembly.ShippedDimensions` records the zero height.
- Bay.Corners: no precondition that `CornerW < X/2 + wall` and `CornerW < Y/2 + wall`, because the program never checks it. `Bay.HCut` and `Bay.VCut` instead state that a cut has positive width exactly when that condition holds. Any rejection of a non-positive box is left to `lib` in `Assembly.Run`.

=== FILE: assembly.dfy ===
/**
  The assembly driver: derives the vertical stack-up and every diameter
  from the physical inputs, composes the body, cover and baseplate, and
  aborts at the first library constructor that rejects its arguments.
*/
module Assembly {
  import opened Csg
  import opened Design
  import Posts
  import Bay
  import Shell
  import Plate

  datatype Result<+T, +E> = Ok(value: T) | Err(error: E)

  /**
    The vertical stack-up, bottom to top: the floor wall, the IMU board, the
    feather board on its posts, the battery on the feather's posts, and half
    a cover. `imu`, `feather` and `battery` are the input records with their
    derived heights filled in.
  */
  datatype Stack = Stack(
    imu: Board, feather: Board, battery: Battery,
    imuTop: real, batteryBotZ: real, coverZ: real)

  /**
    Derives the stack-up. The IMU's top is the floor wall plus the IMU's
    thickness, and the feather's shoulders stand there. Each post height,
    the battery's bottom and the corner columns' top are running sums of
    the thicknesses below them, less a 5 mm allowance for the posts that
    reach into a board. Only the derived fields of the records change.
  */
  function StackUp(imu: Board, feather: Board, battery: Battery): (st: Stack)
    ensures st.imu == imu.(postZ := st.imu.postZ)
    ensures st.feather == feather.(postZ := st.feather.postZ, shoulderZ := st.feather.shoulderZ)
    ensures st.battery == battery.(cornerZ := st.battery.cornerZ)
    ensures st.imu.postZ == Wall + imu.z - 5.0
    ensures st.feather.shoulderZ == Wall + imu.z
    ensures st.feather.postZ == Wall + imu.z + feather.z - 5.0
    ensures st.batteryBotZ == st.feather.postZ
    ensures st.battery.cornerZ == Wall + imu.z + feather.z - 5.0 + battery.z
    ensures Wall < st.imu.postZ <==> imu.z > 5.0
    ensures st.imu.postZ < st.feather.shoulderZ
    ensures st.feather.shoulderZ < st.feather.postZ <==> feather.z > 5.0
    ensures st.imuTop == Wall + imu.z && st.coverZ == 2.0 * Wall
  {
    var imuTop := Wall + imu.z;
    var imu' := imu.(postZ := imuTop - 5.0);
    var feather' := feather.(postZ := imuTop + feather.z - 5.0, shoulderZ := imuTop);
    var batteryBotZ := feather'.postZ;
    var battery' := battery.(cornerZ := batteryBotZ + battery.z);
    Stack(imu', feather', battery', imuTop, batteryBotZ, Wall * 2.0)
  }

  /** Every derived dimension of one run. */
  datatype Dims = Dims(
    stack: Stack, body: Shell.Body,
    coverOd: real, coverId: real,
    baseplate: Plate.Baseplate)

  /**
    Derives the body, cover and baseplate dimensions. Whatever the boards and
    battery, the body's re-derived inner diameter is the reprint constant;
    the body ends half a cover above the battery's corner columns; the
    cover's step is 0.1 mm wider than the body's inner diameter; and the
    baseplate tapers from one wall less than the inner diameter up to it.
  */
  function Derive(imu: Board, feather: Board, battery: Battery): (d: Dims)
    ensures d.stack == StackUp(imu, feather, battery)
    ensures d.body == Shell.Init(HubId - 5.0, HubId, d.stack.battery.cornerZ + Wall, BodyId)
    ensures d.baseplate == Plate.Init(d.body.id - Wall, d.body.id, 0.0)
    ensures d.body.id == BodyId
    ensures d.body.od1 < d.body.od2 == HubId
    ensures d.body.z - d.stack.battery.cornerZ == d.stack.coverZ / 2.0 == Wall
    ensures d.coverOd == HubOd && d.coverId - d.body.id == 0.1
    ensures d.baseplate.od2 == d.body.id && d.baseplate.od2 - d.baseplate.od1 == Wall
  {
    var st := StackUp(imu, feather, battery);
    var body := Shell.Init(HubId - 5.0, HubId, st.battery.cornerZ + st.coverZ / 2.0, BodyId);
    var coverId := body.id + 0.1;
    var baseplate := Plate.Init(body.id - Wall, body.id, 0.0);
    Dims(st, body, HubOd, coverId, baseplate)
  }

  /** The cover's outer disc, half the cover thick, resting on z = 0. */
  function CoverDisc(coverOd: real, coverZ: real): (s: Solid)
    ensures OnAxis(s) && s.shape.Cylinder? && s.shape.radius == coverOd / 2.0
    ensures ZSpan(s) == Interval(0.0, coverZ / 2.0)
  {
    Lift(Cylinder(coverZ / 2.0, coverOd / 2.0, 1.0), coverZ / 4.0)
  }

  /** The cover's inner step, half the cover thick, hanging below z = 0. */
  function CoverStep(coverId: real, coverZ: real): (s: Solid)
    ensures OnAxis(s) && s.shape.Cylinder? && s.shape.radius == coverId / 2.0
    ensures ZSpan(s) == Interval(-coverZ / 2.0, 0.0)
  {
    Lift(Cylinder(coverZ / 2.0, coverId / 2.0, 0.0), -coverZ / 4.0)
  }

  /**
    The cover: disc and step meeting at z = `bodyZ`, so the disc sits on top
    of the body and the step reaches half the cover's thickness into it.
  */
  function Cover(coverOd: real, coverId: real, coverZ: real, bodyZ: real): (s: Solid)
    ensures s.Translate? && s.offset == Vec3(0.0, 0.0, bodyZ)
    ensures s.shape == Union([CoverDisc(coverOd, coverZ), CoverStep(coverId, coverZ)])
    ensures coverZ >= 0.0 ==> ZSpan(s) == Interval(bodyZ - coverZ / 2.0, bodyZ + coverZ / 2.0)
  {
    UnionSpan2(CoverDisc(coverOd, coverZ), CoverStep(coverId, coverZ));
    Lift(Union([CoverDisc(coverOd, coverZ), CoverStep(coverId, coverZ)]), bodyZ)
  }

  /** The battery's box moved to its place in the stack. */
  function PlacedBattery(st: Stack): (s: Solid)
    ensures s.Translate? && s.shape == Bay.Shape(st.battery)
    ensures s.offset == Vec3(0.0, 0.0, st.batteryBotZ + st.battery.z / 2.0)
    ensures ZSpan(s) == Interval(st.batteryBotZ, st.batteryBotZ + st.battery.z)
  {
    Lift(Bay.Shape(st.battery), st.batteryBotZ + st.battery.z / 2.0)
  }

  /** The corner columns standing on z = 0, with the battery's box removed. */
  function PlacedCorners(st: Stack): (s: Solid)
    ensures s.Difference? && s.cut == PlacedBattery(st)
    ensures s.base == Lift(Bay.Corners(st.battery), st.battery.cornerZ / 2.0)
    ensures ZSpan(s) == Interval(0.0, st.battery.cornerZ)
  {
    Difference(Lift(Bay.Corners(st.battery), st.battery.cornerZ / 2.0), PlacedBattery(st))
  }

  /** The three exported solids. */
  datatype Parts = Parts(body: Solid, cover: Solid, baseplate: Solid)

  /**
    Composes the parts. The exported baseplate is the disc united with both
    boards' posts and the corner columns; the exported body is the shell
    with that whole baseplate carved out; the cover spans one wall either
    side of the body's top.
  */
  function Assemble(d: Dims): (p: Parts)
    ensures p.baseplate.Union? && |p.baseplate.parts| == 4
    ensures p.baseplate.parts[0] == d.baseplate.s
    ensures p.baseplate.parts[1] == Posts.Posts(d.stack.feather)
    ensures p.baseplate.parts[2] == Posts.Posts(d.stack.imu)
    ensures p.baseplate.parts[3] == PlacedCorners(d.stack)
    ensures p.body == Difference(d.body.s, p.baseplate)
    ensures p.cover == Cover(d.coverOd, d.coverId, d.stack.coverZ, d.body.z)
    ensures d.stack.coverZ == 2.0 * Wall ==> ZSpan(p.cover) == Interval(d.body.z - Wall, d.body.z + Wall)
  {
    var st := d.stack;
    var cover := Cover(d.coverOd, d.coverId, st.coverZ, d.body.z);
    var baseplate := Union([d.baseplate.s, Posts.Posts(st.feather), Posts.Posts(st.imu), PlacedCorners(st)]);
    Parts(Difference(d.body.s, baseplate), cover, baseplate)
  }

  /**
    The whole run for the given boards and battery, when no constructor
    rejects: the exported baseplate is the disc of the body's inner diameter
    carrying both boards' posts and the corner columns; the exported body is
    the hub shell, sized by the stack, with that baseplate carved out of it;
    and the cover sits one wall deep in the shell's top.
  */
  function Main(imu: Board, feather: Board, battery: Battery): (p: Parts)
    ensures var st := StackUp(imu, feather, battery);
      var shell := Shell.Init(HubId - 5.0, HubId, st.battery.cornerZ + Wall, BodyId);
      && p.baseplate == Union([Plate.Init(BodyId - Wall, BodyId, 0.0).s, Posts.Posts(st.feather), Posts.Posts(st.imu), PlacedCorners(st)])
      && p.body == Difference(shell.s, p.baseplate)
      && p.cover == Cover(HubOd, BodyId + 0.1, 2.0 * Wall, shell.z)
      && ZSpan(p.cover) == Interval(shell.z - Wall, shell.z + Wall)
  {
    Assemble(Derive(imu, feather, battery))
  }

  /**
    The library constructor calls of one run, in the order the driver makes
    them: the body, the battery's box, the corner block and its two cuts,
    the cover's two cylinders, the baseplate disc, the feather's posts and
    the IMU's posts.
  */
  function Calls(d: Dims): seq<Call>
  {
    var st := d.stack;
    Shell.Calls(d.body.od1, d.body.od2, d.body.z)
    + [BoxCall(Vec3(st.battery.x, st.battery.y, st.battery.z), 0.0)]
    + Bay.CornerCalls(st.battery)
    + [CylinderCall(st.coverZ / 2.0, d.coverOd / 2.0, 1.0), CylinderCall(st.coverZ / 2.0, d.coverId / 2.0, 0.0)]
    + Plate.Calls(d.baseplate.od1, d.baseplate.od2)
    + Posts.Calls(st.feather)
    + Posts.Calls(st.imu)
  }

  /**
    The run's calls come in seven groups, in this order: the body's six, the
    battery's box, the corner block and its two cuts, the cover's outer disc
    and inner step, the baseplate disc's three, then the feather's eight post
    calls and the IMU's eight.
  */
  lemma CallOrder(d: Dims)
    ensures var cs := Calls(d);
      && |cs| == 31
      && cs[..6] == Shell.Calls(d.body.od1, d.body.od2, d.body.z)
      && cs[6] == BoxCall(Vec3(d.stack.battery.x, d.stack.battery.y, d.stack.battery.z), 0.0)
      && cs[7..10] == Bay.CornerCalls(d.stack.battery)
      && cs[10].CylinderCall? && cs[10].radius == d.coverOd / 2.0
      && cs[11].CylinderCall? && cs[11].radius == d.coverId / 2.0
      && cs[12..15] == Plate.Calls(d.baseplate.od1, d.baseplate.od2)
      && cs[15..23] == Posts.Calls(d.stack.feather) && cs[23..] == Posts.Calls(d.stack.imu)
  {
  }

  /** The constructor calls whose results appear in the exported parts. */
  function Exported(p: Parts): set<Call>
  {
    Leaves(p.body) + Leaves(p.cover) + Leaves(p.baseplate)
  }

  /** Every call the run makes ends up in an exported part, and nothing else does. */
  lemma {:induction false} CallsAreExported(imu: Board, feather: Board, battery: Battery)
    ensures var d := Derive(imu, feather, battery);
      Elems(Calls(d)) == Exported(Assemble(d))
  {
    var d := Derive(imu, feather, battery);
    var st := d.stack;
    CallGroups(d);
    ExportedGroups(d);
    Shell.CallsAreLeaves(d.body.od1, d.body.od2, d.body.z, BodyId);
    Bay.CornerCallsAreLeaves(st.battery);
    Posts.CallsAreLeaves(st.feather);
    Posts.CallsAreLeaves(st.imu);
    UnionLeaves2(CoverDisc(d.coverOd, st.coverZ), CoverStep(d.coverId, st.coverZ));
    assert Leaves(d.baseplate.s) == Elems(Plate.Calls(d.baseplate.od1, d.baseplate.od2));
  }

  /** The distinct calls of a run, group by group. */
  lemma {:induction false} CallGroups(d: Dims)
    ensures var st := d.stack;
      Elems(Calls(d))
      == Elems(Shell.Calls(d.body.od1, d.body.od2, d.body.z))
       + {BoxCall(Vec3(st.battery.x, st.battery.y, st.battery.z), 0.0)}
       + Elems(Bay.CornerCalls(st.battery))
       + {CylinderCall(st.coverZ / 2.0, d.coverOd / 2.0, 1.0), CylinderCall(st.coverZ / 2.0, d.coverId / 2.0, 0.0)}
       + Elems(Plate.Calls(d.baseplate.od1, d.baseplate.od2))
       + Elems(Posts.Calls(st.feather))
       + Elems(Posts.Calls(st.imu))
  {
    var st := d.stack;
    var shellCalls := Shell.Calls(d.body.od1, d.body.od2, d.body.z);
    var batteryCall := [BoxCall(Vec3(st.battery.x, st.battery.y, st.battery.z), 0.0)];
    var coverCalls := [CylinderCall(st.coverZ / 2.0, d.coverOd / 2.0, 1.0), CylinderCall(st.coverZ / 2.0, d.coverId / 2.0, 0.0)];
    var plateCalls := Plate.Calls(d.baseplate.od1, d.baseplate.od2);
    var fromBattery := batteryCall + Bay.CornerCalls(st.battery);
    var fromCover := fromBattery + coverCalls;
    var fromPlate := fromCover + plateCalls;
    var fromFeather := fromPlate + Posts.Calls(st.feather);
    assert Calls(d) == shellCalls + (fromFeather + Posts.Calls(st.imu));
    ElemsOfConcat(batteryCall, Bay.CornerCalls(st.battery));
    ElemsOfConcat(fromBattery, coverCalls);
    ElemsOfConcat(fromCover, plateCalls);
    ElemsOfConcat(fromPlate, Posts.Calls(st.feather));
    ElemsOfConcat(fromFeather, Posts.Calls(st.imu));
    ElemsOfConcat(shellCalls, fromFeather + Posts.Calls(st.imu));
    assert Elems(batteryCall) == {BoxCall(Vec3(st.battery.x, st.battery.y, st.battery.z), 0.0)};
    assert Elems(coverCalls) == {CylinderCall(st.coverZ / 2.0, d.coverOd / 2.0, 1.0), CylinderCall(st.coverZ / 2.0, d.coverId / 2.0, 0.0)};
  }

  /** The primitives of the exported parts, part by part. */
  lemma {:induction false} ExportedGroups(d: Dims)
    ensures var st := d.stack;
      Exported(Assemble(d))
      == Leaves(d.body.s)
       + Leaves(Cover(d.coverOd, d.coverId, st.coverZ, d.body.z))
       + Leaves(d.baseplate.s)
       + Leaves(Posts.Posts(st.feather))
       + Leaves(Posts.Posts(st.imu))
       + Leaves(Bay.Corners(st.battery))
       + {BoxCall(Vec3(st.battery.x, st.battery.y, st.battery.z), 0.0)}
  {
    var st := d.stack;
    PlacedCornersLeaves(st);
    UnionLeaves4(d.baseplate.s, Posts.Posts(st.feather), Posts.Posts(st.imu), PlacedCorners(st));
  }

  /** The corner columns hold the corner block's calls and the battery's box. */
  lemma PlacedCornersLeaves(st: Stack)
    ensures Leaves(PlacedCorners(st))
         == Leaves(Bay.Corners(st.battery)) + {BoxCall(Vec3(st.battery.x, st.battery.y, st.battery.z), 0.0)}
  {
    assert Leaves(PlacedBattery(st)) == {BoxCall(Vec3(st.battery.x, st.battery.y, st.battery.z), 0.0)};
  }

  /** The distinct elements of a sequence of calls. */
  function Elems(cs: seq<Call>): set<Call>
  {
    set c | c in cs
  }

  /** The calls of two sequences run one after the other are those of each. */
  lemma ElemsOfConcat(a: seq<Call>, b: seq<Call>)
    ensures Elems(a + b) == Elems(a) + Elems(b)
  {
  }

  /**
    Runs the driver against a library whose constructors accept exactly the
    calls `lib` approves. The run aborts at the first rejected call and
    reports it; otherwise it yields the three parts, which happens exactly
    when every primitive in the exported parts is accepted.
  */
  method Run(lib: Call -> bool, imu: Board, feather: Board, battery: Battery) returns (r: Result<Parts, Call>)
    ensures r.Ok? ==> r.value == Main(imu, feather, battery)
    ensures r.Ok? <==> forall c :: c in Exported(Main(imu, feather, battery)) ==> lib(c)
    ensures r.Err? ==>
      var cs := Calls(Derive(imu, feather, battery));
      exists k :: 0 <= k < |cs| && cs[k] == r.error && !lib(cs[k]) && forall j :: 0 <= j < k ==> lib(cs[j])
  {
    var d := Derive(imu, feather, battery);
    var cs := Calls(d);
    CallsAreExported(imu, feather, battery);
    var i := 0;
    while i < |cs|
      invariant 0 <= i <= |cs|
      invariant forall j :: 0 <= j < i ==> lib(cs[j])
    {
      if !lib(cs[i]) {
        assert cs[i] in Exported(Main(imu, feather, battery));
        return Err(cs[i]);
      }
      i := i + 1;
    }
    assert forall c :: c in Exported(Main(imu, feather, battery)) ==> lib(c) by {
      forall c | c in Exported(Main(imu, feather, battery))
        ensures lib(c)
      {
        assert c in Elems(cs);
      }
    }
    return Ok(Assemble(d));
  }

  /**
    When both boards are thicker than their 5 mm post allowance and the
    battery has positive thickness, each placement in the stack lies strictly
    above the previous one, from the floor wall up to the body's top.
  */
  lemma StackStrictlyRises(imu: Board, feather: Board, battery: Battery)
    requires imu.z > 5.0 && feather.z > 5.0 && battery.z > 0.0
    ensures var d := Derive(imu, feather, battery);
      && Wall < d.stack.imu.postZ
      && d.stack.imu.postZ < d.stack.feather.shoulderZ
      && d.stack.feather.shoulderZ < d.stack.feather.postZ
      && d.stack.batteryBotZ < d.stack.battery.cornerZ
      && d.stack.battery.cornerZ < d.body.z
  {
  }

  /**
    The battery rests exactly on top of the feather's posts and its top is
    flush with the top of the corner columns.
  */
  lemma BatteryBetweenPostsAndColumns(imu: Board, feather: Board, battery: Battery)
    requires feather.z >= 5.0
    ensures var st := StackUp(imu, feather, battery);
      && ZSpan(PlacedBattery(st)).lo == ZSpan(Posts.Posts(st.feather)).hi
      && ZSpan(PlacedBattery(st)).hi == ZSpan(PlacedCorners(st)).hi
  {
  }

  /**
    The shipped boards and battery: posts 13 and 28 mm tall, the feather's
    shoulders 18 mm, the corner columns 36.1 mm, the body 39.1 mm, its inner
    diameter 90.6 mm and the cover's step 90.7 mm. The IMU's shoulder height
    is never derived and stays zero, so its shoulders are flat discs.
  */
  lemma ShippedDimensions()
    ensures var d := Derive(Imu, Feather, Pack);
      && d.stack.imu.postZ == 13.0
      && d.stack.imu.shoulderZ == 0.0
      && d.stack.feather.shoulderZ == 18.0
      && d.stack.feather.postZ == 28.0
      && d.stack.battery.cornerZ == 36.1
      && d.body.z == 39.1
      && d.body.id == 90.6
      && d.coverId == 90.7
  {
  }
}

=== FILE: baseplate.dfy ===
/**
  The baseplate: a shallow lofted disc one wall thick that carries the
  posts and the battery bay.
*/
module Plate {
  import opened Csg
  import opened Design

  /** The baseplate: its solid, bottom and top diameters, and its height field. */
  datatype Baseplate = Baseplate(s: Solid, od1: real, od2: real, z: real)

  /**
    Builds the disc: a loft from diameter `od1` at z = 0 to `od2` at z = Wall.
    The height field is left as the caller supplied it.
  */
  function Init(od1: real, od2: real, z: real): (p: Baseplate)
    ensures p.od1 == od1 && p.od2 == od2 && p.z == z
    ensures OnAxis(p.s) && p.s.shape.Loft?
    ensures p.s.shape.bottom.radius == od1 / 2.0 && p.s.shape.top.radius == od2 / 2.0
    ensures ZSpan(p.s) == Interval(0.0, Wall)
  {
    Baseplate(Lift(Loft(Circle(od1 / 2.0), Circle(od2 / 2.0), Wall, 0.0), Wall / 2.0), od1, od2, z)
  }

  /** The library constructor calls `Init` makes, in the order it makes them. */
  function Calls(od1: real, od2: real): seq<Call>
  {
    [CircleCall(od1 / 2.0), CircleCall(od2 / 2.0), LoftCall(Circle(od1 / 2.0), Circle(od2 / 2.0), Wall, 0.0)]
  }
}

=== FILE: bay.dfy ===
/**
  The battery bay: a walled block around the battery with two through-cuts
  that leave four free-standing corner columns, plus the battery's own box.
*/
module Bay {
  import opened Csg
  import opened Design

  /** The block the columns are cut from: the battery footprint plus one wall on each side. */
  function OuterBox(b: Battery): (s: Solid)
    ensures s.Box? && s.size.z == b.cornerZ
    ensures s.size.x - b.x == 2.0 * Wall && s.size.y - b.y == 2.0 * Wall
  {
    Box(Vec3(b.x + Wall * 2.0, b.y + Wall * 2.0, b.cornerZ), 1.0)
  }

  /**
    The cut running along y. It leaves a column `cornerW` wide at each x end
    of the block; it has positive width exactly when `cornerW` is below half
    the block's x extent, and it passes clean through the block exactly when
    the battery is deeper than two walls.
  */
  function HCut(b: Battery): (s: Solid)
    ensures s.Box? && s.size.z == OuterBox(b).size.z
    ensures (OuterBox(b).size.x - s.size.x) / 2.0 == b.cornerW
    ensures s.size.x > 0.0 <==> b.cornerW < b.x / 2.0 + Wall
    ensures s.size.y > OuterBox(b).size.y <==> b.y > 2.0 * Wall
  {
    Box(Vec3(b.x - b.cornerW * 2.0 + Wall * 2.0, b.y * 2.0, b.cornerZ), 0.0)
  }

  /** The cut running along x; the mirror image of `HCut` with x and y exchanged. */
  function VCut(b: Battery): (s: Solid)
    ensures s.Box? && s.size.z == OuterBox(b).size.z
    ensures (OuterBox(b).size.y - s.size.y) / 2.0 == b.cornerW
    ensures s.size.y > 0.0 <==> b.cornerW < b.y / 2.0 + Wall
    ensures s.size.x > OuterBox(b).size.x <==> b.x > 2.0 * Wall
  {
    Box(Vec3(b.x * 2.0, b.y - b.cornerW * 2.0 + Wall * 2.0, b.cornerZ), 0.0)
  }

  /** The four corner columns, centred on the origin and `cornerZ` tall. */
  function Corners(b: Battery): (s: Solid)
    ensures s.Difference? && s.cut == VCut(b) && s.base == Difference(OuterBox(b), HCut(b))
    ensures ZSpan(s) == Interval(-b.cornerZ / 2.0, b.cornerZ / 2.0)
  {
    assert ZSpan(Difference(OuterBox(b), HCut(b))) == ZSpan(OuterBox(b));
    Difference(Difference(OuterBox(b), HCut(b)), VCut(b))
  }

  /** The battery itself, centred on the origin. */
  function Shape(b: Battery): (s: Solid)
    ensures s.Box? && ZSpan(s) == Interval(-b.z / 2.0, b.z / 2.0)
    ensures OuterBox(b).size.x - s.size.x == 2.0 * Wall && OuterBox(b).size.y - s.size.y == 2.0 * Wall
  {
    Box(Vec3(b.x, b.y, b.z), 0.0)
  }

  /** The library constructor calls `Corners` makes, in the order it makes them. */
  function CornerCalls(b: Battery): seq<Call>
  {
    [BoxCall(Vec3(b.x + Wall * 2.0, b.y + Wall * 2.0, b.cornerZ), 1.0),
     BoxCall(Vec3(b.x - b.cornerW * 2.0 + Wall * 2.0, b.y * 2.0, b.cornerZ), 0.0),
     BoxCall(Vec3(b.x * 2.0, b.y - b.cornerW * 2.0 + Wall * 2.0, b.cornerZ), 0.0)]
  }

  /** Every call `Corners` makes ends up in its solid, and nothing else does. */
  lemma CornerCallsAreLeaves(b: Battery)
    ensures (set c | c in CornerCalls(b)) == Leaves(Corners(b))
  {
    assert Leaves(Difference(OuterBox(b), HCut(b))) == {CornerCalls(b)[0], CornerCalls(b)[1]};
  }

  /** For the shipped battery both cuts have positive width and pass clean through. */
  lemma PackCutsSound(cornerZ: real)
    ensures var b := Pack.(cornerZ := cornerZ);
      && HCut(b).size.x > 0.0 && VCut(b).size.y > 0.0
      && HCut(b).size.y > OuterBox(b).size.y && VCut(b).size.x > OuterBox(b).size.x
  {
  }
}

=== FILE: csg.dfy ===
/**
  The vocabulary of solids the enclosure generator builds with.

  The signed-distance-field library the generator calls is not part of this
  model: its primitives, booleans and transforms appear here only as the
  constructors of an uninterpreted syntax tree. The geometric meaning the
  model attaches to a tree is its nominal vertical extent (`ZSpan`), which
  follows the library's convention that every primitive is centred on the
  origin, and the horizontal placement of translated parts (`Centres`,
  `OnAxis`); rounding radii are carried along but do not change the nominal
  extent.
*/
module Csg {

  /** A displacement or size in millimetres. */
  datatype Vec3 = Vec3(x: real, y: real, z: real)

  /** A horizontal position. */
  datatype XY = XY(x: real, y: real)

  /** Two-dimensional profiles; the enclosure only lofts between circles. */
  datatype Profile = Circle(radius: real)

  datatype Solid =
    | Cylinder(height: real, radius: real, round: real)
    | Box(size: Vec3, round: real)
    | Loft(bottom: Profile, top: Profile, height: real, round: real)
    | Union(parts: seq<Solid>)
    | Difference(base: Solid, cut: Solid)
    | Translate(shape: Solid, offset: Vec3)

  /**
    One call of a fallible library constructor, with its arguments. The
    booleans and the transform cannot fail, so they are not calls.
  */
  datatype Call =
    | CircleCall(r: real)
    | CylinderCall(h: real, radius: real, round: real)
    | BoxCall(size: Vec3, boxRound: real)
    | LoftCall(bottom: Profile, top: Profile, loftHeight: real, loftRound: real)

  /** A vertical range [lo, hi]. */
  datatype Interval = Interval(lo: real, hi: real)

  function Min(a: real, b: real): real { if a <= b then a else b }

  function Max(a: real, b: real): real { if a >= b then a else b }

  /** The smallest interval covering both arguments. */
  function Hull(a: Interval, b: Interval): (h: Interval)
    ensures h.lo <= a.lo && h.lo <= b.lo && (h.lo == a.lo || h.lo == b.lo)
    ensures h.hi >= a.hi && h.hi >= b.hi && (h.hi == a.hi || h.hi == b.hi)
  {
    Interval(Min(a.lo, b.lo), Max(a.hi, b.hi))
  }

  /** A solid moved straight up by `dz` (a negative `dz` moves it down). */
  function Lift(s: Solid, dz: real): Solid
  {
    Translate(s, Vec3(0.0, 0.0, dz))
  }

  /** A translation that moves its solid only vertically, so it stays centred on the z axis. */
  predicate OnAxis(s: Solid)
  {
    s.Translate? && s.offset.x == 0.0 && s.offset.y == 0.0
  }

  /**
    The nominal vertical extent of a solid: a centred primitive of height h
    spans [-h/2, h/2], a translation shifts the span, a union covers all of
    its parts and a difference lies within its base. An empty union has no
    extent; it is given [0, 0] and is never built by the enclosure.
  */
  function ZSpan(s: Solid): Interval
  {
    match s
    case Cylinder(h, _, _) => Interval(-h / 2.0, h / 2.0)
    case Box(size, _) => Interval(-size.z / 2.0, size.z / 2.0)
    case Loft(_, _, h, _) => Interval(-h / 2.0, h / 2.0)
    case Union(ps) => PartsSpan(ps)
    case Difference(base, _) => ZSpan(base)
    case Translate(t, off) => Interval(ZSpan(t).lo + off.z, ZSpan(t).hi + off.z)
  }

  function PartsSpan(ps: seq<Solid>): Interval
  {
    if |ps| == 0 then Interval(0.0, 0.0)
    else if |ps| == 1 then ZSpan(ps[0])
    else Hull(ZSpan(ps[0]), PartsSpan(ps[1..]))
  }

  /** A union of two solids spans the hull of their spans. */
  lemma {:induction false} UnionSpan2(a: Solid, b: Solid)
    ensures ZSpan(Union([a, b])) == Hull(ZSpan(a), ZSpan(b))
  {
    var ps := [a, b];
    assert ps[1..] == [b];
    assert PartsSpan(ps[1..]) == ZSpan(b);
    assert ZSpan(Union(ps)) == PartsSpan(ps);
  }

  /** A union of four solids spans the hull of their spans. */
  lemma {:induction false} UnionSpan4(a: Solid, b: Solid, c: Solid, d: Solid)
    ensures ZSpan(Union([a, b, c, d])) == Hull(Hull(ZSpan(a), ZSpan(b)), Hull(ZSpan(c), ZSpan(d)))
  {
    var ps := [a, b, c, d];
    assert ps[1..] == [b, c, d];
    assert ps[2..] == [c, d];
    assert ps[3..] == [d];
    assert PartsSpan(ps[3..]) == ZSpan(d);
    assert PartsSpan(ps[2..]) == Hull(ZSpan(c), ZSpan(d)) by {
      assert ps[2..][1..] == ps[3..];
    }
    assert PartsSpan(ps[1..]) == Hull(ZSpan(b), Hull(ZSpan(c), ZSpan(d))) by {
      assert ps[1..][1..] == ps[2..];
    }
    assert ZSpan(Union(ps)) == PartsSpan(ps);
  }

  /** The calls in a union of two solids are those of its parts. */
  lemma {:induction false} UnionLeaves2(a: Solid, b: Solid)
    ensures Leaves(Union([a, b])) == Leaves(a) + Leaves(b)
  {
    var ps := [a, b];
    assert ps[1..] == [b];
    assert ps[1..][1..] == [];
    assert PartsLeaves(ps[1..]) == Leaves(b);
    assert Leaves(Union(ps)) == PartsLeaves(ps);
  }

  /** The calls in a union of four solids are those of its parts. */
  lemma {:induction false} UnionLeaves4(a: Solid, b: Solid, c: Solid, d: Solid)
    ensures Leaves(Union([a, b, c, d])) == Leaves(a) + Leaves(b) + Leaves(c) + Leaves(d)
  {
    var ps := [a, b, c, d];
    assert ps[1..] == [b, c, d];
    assert ps[2..] == [c, d];
    assert ps[3..] == [d];
    assert ps[3..][1..] == [];
    assert PartsLeaves(ps[3..]) == Leaves(d);
    assert PartsLeaves(ps[2..]) == Leaves(c) + Leaves(d) by {
      assert ps[2..][1..] == ps[3..];
    }
    assert PartsLeaves(ps[1..]) == Leaves(b) + Leaves(c) + Leaves(d) by {
      assert ps[1..][1..] == ps[2..];
    }
    assert Leaves(Union(ps)) == PartsLeaves(ps);
  }

  /**
    The horizontal positions at which the translated parts of a union are
    placed (the position of a single translated solid for a translation).
  */
  function Centres(s: Solid): set<XY>
  {
    match s
    case Union(ps) => set i | 0 <= i < |ps| && ps[i].Translate? :: XY(ps[i].offset.x, ps[i].offset.y)
    case Translate(_, off) => {XY(off.x, off.y)}
    case _ => {}
  }

  /** Every library constructor call whose result appears in the solid. */
  function Leaves(s: Solid): set<Call>
  {
    match s
    case Cylinder(h, r, round) => {CylinderCall(h, r, round)}
    case Box(size, round) => {BoxCall(size, round)}
    case Loft(a, b, h, round) => {CircleCall(a.radius), CircleCall(b.radius), LoftCall(a, b, h, round)}
    case Union(ps) => PartsLeaves(ps)
    case Difference(base, cut) => Leaves(base) + Leaves(cut)
    case Translate(t, _) => Leaves(t)
  }

  function PartsLeaves(ps: seq<Solid>): set<Call>
  {
    if |ps| == 0 then {} else Leaves(ps[0]) + PartsLeaves(ps[1..])
  }
}

=== FILE: design.dfy ===
/**
  The physical constants of the enclosure and the records describing the
  boards and the battery it carries. All lengths are millimetres.
*/
module Design {

  /** One inch. */
  const In: real := 25.4
  /** Print shrinkage factor (PETG does not shrink); declared but never applied. */
  const Scale: real := 1.0

  /** The brake-rotor hub the enclosure mounts on. */
  const HubId: real := 4.0 * In
  const HubOd: real := 110.0
  const HubDepth: real := 20.0

  const Wall: real := 3.0
  /** Declared but never used by the generator. */
  const Spacing: real := 3.0

  /** The body's inner diameter, fixed so that reprinted parts stay compatible. */
  const BodyId: real := 90.6

  /**
    A circuit board: footprint `x` by `y`, stack height `z`, mounting-hole
    spacing `ctrsX` by `ctrsY`, post diameter, and the post and shoulder
    heights the assembly derives.
  */
  datatype Board = Board(
    x: real, y: real, z: real,
    ctrsX: real, ctrsY: real,
    postDia: real, postZ: real, shoulderZ: real)

  /**
    A battery: footprint `x` by `y`, thickness `z`, the width of the corner
    columns that hold it, and the height of those columns the assembly derives.
  */
  datatype Battery = Battery(x: real, y: real, z: real, cornerW: real, cornerZ: real)

  /** The inertial measurement board; its post and shoulder heights start at zero. */
  const Imu: Board := Board(1.0 * In, 0.8 * In, 15.0, 0.8 * In, 0.6 * In, 2.0, 0.0, 0.0)

  /** The microcontroller board. */
  const Feather: Board := Board(2.0 * In, 0.9 * In, 15.0, 1.8 * In, 0.7 * In, 2.0, 0.0, 0.0)

  /** The lithium battery pack. */
  const Pack: Battery := Battery(62.5, 50.5, 8.1, Wall + 10.0, 0.0)
}

=== FILE: posts.dfy ===
/**
  Mounting posts for a board's rectangular 2 x 2 hole pattern.
*/
module Posts {
  import opened Csg
  import opened Design

  /** The post proper: a cylinder of the post's diameter standing on z = 0. */
  function PostCylinder(b: Board): (s: Solid)
    ensures OnAxis(s) && s.shape.Cylinder? && s.shape.radius == b.postDia / 2.0
    ensures ZSpan(s) == Interval(0.0, b.postZ)
  {
    Lift(Cylinder(b.postZ, b.postDia / 2.0, 0.0), b.postZ / 2.0)
  }

  /** The shoulder collar at the post's base, standing on z = 0. */
  function Shoulder(b: Board): (s: Solid)
    ensures OnAxis(s) && s.shape.Cylinder?
    ensures s.shape.radius == 2.0 * PostCylinder(b).shape.radius
    ensures ZSpan(s) == Interval(0.0, b.shoulderZ)
  {
    Lift(Cylinder(b.shoulderZ, b.postDia, 0.0), b.shoulderZ / 2.0)
  }

  /** One post with its shoulder, centred on the origin in x and y. */
  function Post(b: Board): (s: Solid)
    ensures s == Union([PostCylinder(b), Shoulder(b)])
    ensures ZSpan(s) == Interval(0.0, Max(b.postZ, b.shoulderZ))
  {
    UnionSpan2(PostCylinder(b), Shoulder(b));
    Union([PostCylinder(b), Shoulder(b)])
  }

  /** The offset of hole `i` (0 or 1) along an axis whose holes are `ctrs` apart. */
  function HoleOffset(i: nat, ctrs: real): real
  {
    (i as real) * ctrs - ctrs / 2.0
  }

  /** The post for hole (ix, iy), moved into place. */
  function PlacedPost(b: Board, ix: nat, iy: nat): Solid
  {
    Translate(Post(b), Vec3(HoleOffset(ix, b.ctrsX), HoleOffset(iy, b.ctrsY), 0.0))
  }

  /** The four hole centres, relative to the board's centre. */
  function HolePattern(b: Board): set<XY>
  {
    var hx := b.ctrsX / 2.0;
    var hy := b.ctrsY / 2.0;
    {XY(-hx, -hy), XY(-hx, hy), XY(hx, -hy), XY(hx, hy)}
  }

  /**
    The posts of a board: one copy of the same post at each of the four
    holes, all standing on z = 0.
  */
  function Posts(b: Board): (s: Solid)
    ensures s.Union? && |s.parts| == 4
    ensures forall i :: 0 <= i < 4 ==> s.parts[i].Translate? && s.parts[i].shape == Post(b) && s.parts[i].offset.z == 0.0
    ensures Centres(s) == HolePattern(b)
    ensures ZSpan(s) == Interval(0.0, Max(b.postZ, b.shoulderZ))
  {
    var ps := [PlacedPost(b, 0, 0), PlacedPost(b, 0, 1), PlacedPost(b, 1, 0), PlacedPost(b, 1, 1)];
    UnionSpan4(ps[0], ps[1], ps[2], ps[3]);
    assert Centres(Union(ps)) == HolePattern(b) by {
      var hx := b.ctrsX / 2.0;
      var hy := b.ctrsY / 2.0;
      assert XY(ps[0].offset.x, ps[0].offset.y) == XY(-hx, -hy);
      assert XY(ps[1].offset.x, ps[1].offset.y) == XY(-hx, hy);
      assert XY(ps[2].offset.x, ps[2].offset.y) == XY(hx, -hy);
      assert XY(ps[3].offset.x, ps[3].offset.y) == XY(hx, hy);
    }
    Union(ps)
  }

  /** The hole pattern is unchanged by a half turn about the board's centre. */
  lemma HalfTurnSymmetric(b: Board, c: XY)
    requires c in Centres(Posts(b))
    ensures XY(-c.x, -c.y) in Centres(Posts(b))
  {
  }

  /** The library constructor calls one `Posts` makes, in the order it makes them. */
  function Calls(b: Board): seq<Call>
  {
    var post := CylinderCall(b.postZ, b.postDia / 2.0, 0.0);
    var shoulder := CylinderCall(b.shoulderZ, b.postDia, 0.0);
    [post, shoulder, post, shoulder, post, shoulder, post, shoulder]
  }

  /** Every call `Posts` makes ends up in its solid, and nothing else does. */
  lemma {:induction false} CallsAreLeaves(b: Board)
    ensures (set c | c in Calls(b)) == Leaves(Posts(b))
  {
    UnionLeaves2(PostCylinder(b), Shoulder(b));
    var ps := Posts(b).parts;
    UnionLeaves4(ps[0], ps[1], ps[2], ps[3]);
  }
}

=== FILE: shell.dfy ===
/**
  The hollow body that mounts in the hub: a lofted transition from the hub
  diameter, a cylinder continuing to the full height, a retaining lip for
  the cover, and an internal pocket cut from all of them.
*/
module Shell {
  import opened Csg
  import opened Design

  /**
    The body: its solid, hub-end and cap-end outer diameters, height and
    inner diameter.
  */
  datatype Body = Body(s: Solid, od1: real, od2: real, z: real, id: real)

  /** Height of the lofted transition: half the hub recess, whatever the body's height. */
  const Depth1: real := HubDepth / 2.0

  /** The transition from the hub-end to the cap-end diameter, standing on z = 0. */
  function LoftSegment(od1: real, od2: real): (s: Solid)
    ensures OnAxis(s) && s.shape.Loft?
    ensures s.shape.bottom.radius == od1 / 2.0 && s.shape.top.radius == od2 / 2.0
    ensures ZSpan(s) == Interval(0.0, Depth1)
  {
    Lift(Loft(Circle(od1 / 2.0), Circle(od2 / 2.0), Depth1, 0.0), Depth1 / 2.0)
  }

  /**
    The cylinder continuing the loft's top diameter from the top of the loft
    to the body's full height; it has positive height exactly when the body
    is taller than the loft.
  */
  function UpperSegment(od2: real, z: real): (s: Solid)
    ensures OnAxis(s) && s.shape.Cylinder?
    ensures s.shape.radius == od2 / 2.0
    ensures ZSpan(s).lo == Depth1 && ZSpan(s).hi == z
    ensures s.shape.height > 0.0 <==> z > Depth1
  {
    var depth2 := z - Depth1;
    Lift(Cylinder(depth2, od2 / 2.0, 0.0), Depth1 + depth2 / 2.0)
  }

  /**
    The lip: one wall tall, standing half a wall above the hub recess and
    reaching 2 mm beyond the cap-end outer radius.
  */
  function Lip(od2: real): (s: Solid)
    ensures OnAxis(s) && s.shape.Cylinder?
    ensures s.shape.radius - od2 / 2.0 == 2.0
    ensures ZSpan(s) == Interval(HubDepth + Wall / 2.0, HubDepth + Wall / 2.0 + Wall)
  {
    var lipOd := od2 + 4.0;
    var lipZ := HubDepth + Wall / 2.0;
    Lift(Cylinder(Wall, lipOd / 2.0, 1.0), lipZ + Wall / 2.0)
  }

  /**
    The pocket: a cylinder of the inner diameter as tall as the body, raised
    half a wall so that a floor remains at the hub end.
  */
  function Pocket(id: real, z: real): (s: Solid)
    ensures OnAxis(s) && s.shape.Cylinder? && s.shape.radius == id / 2.0
    ensures ZSpan(s) == Interval(Wall / 2.0, z + Wall / 2.0)
  {
    Lift(Cylinder(z, id / 2.0, 1.0), z / 2.0 + Wall / 2.0)
  }

  /** The body's outer solid before the pocket is cut. */
  function Outside(od1: real, od2: real, z: real): (s: Solid)
    ensures s == Union([Union([LoftSegment(od1, od2), UpperSegment(od2, z)]), Lip(od2)])
    ensures ZSpan(s) == Interval(0.0, Max(z, HubDepth + Wall / 2.0 + Wall))
  {
    var lower := Union([LoftSegment(od1, od2), UpperSegment(od2, z)]);
    UnionSpan2(LoftSegment(od1, od2), UpperSegment(od2, z));
    UnionSpan2(lower, Lip(od2));
    Union([lower, Lip(od2)])
  }

  /**
    Builds the body. The inner diameter the caller supplies is discarded and
    re-derived so that the side wall at the hub end is exactly one wall
    thick; the pocket leaves a floor half a wall thick and is open at the
    top exactly when the body is taller than the recess plus one wall.
  */
  function Init(od1: real, od2: real, z: real, suppliedId: real): (b: Body)
    ensures b.od1 == od1 && b.od2 == od2 && b.z == z
    ensures b.s.Difference? && b.s.base == Outside(od1, od2, z) && b.s.cut == Pocket(b.id, z)
    ensures od1 / 2.0 - b.s.cut.shape.radius == Wall
    ensures b.s.cut.shape.radius == b.id / 2.0
    ensures ZSpan(b.s) == Interval(0.0, Max(z, HubDepth + Wall / 2.0 + Wall))
    ensures ZSpan(b.s.cut).lo - ZSpan(b.s).lo == Wall / 2.0
    ensures ZSpan(b.s.cut).hi > ZSpan(b.s).hi <==> z > HubDepth + Wall
  {
    var id := od1 - Wall * 2.0;
    Body(Difference(Outside(od1, od2, z), Pocket(id, z)), od1, od2, z, id)
  }

  /** The inner diameter depends only on the hub-end diameter, never on the one supplied. */
  lemma IdIgnoresSupplied(od1: real, od2: real, z: real, id1: real, id2: real)
    ensures Init(od1, od2, z, id1) == Init(od1, od2, z, id2)
  {
  }

  /** The library constructor calls `Init` makes, in the order it makes them. */
  function Calls(od1: real, od2: real, z: real): seq<Call>
  {
    var id := od1 - Wall * 2.0;
    [CircleCall(od1 / 2.0), CircleCall(od2 / 2.0),
     LoftCall(Circle(od1 / 2.0), Circle(od2 / 2.0), Depth1, 0.0),
     CylinderCall(z - Depth1, od2 / 2.0, 0.0),
     CylinderCall(Wall, (od2 + 4.0) / 2.0, 1.0),
     CylinderCall(z, id / 2.0, 1.0)]
  }

  /** Every call `Init` makes ends up in the body's solid, and nothing else does. */
  lemma CallsAreLeaves(od1: real, od2: real, z: real, suppliedId: real)
    ensures (set c | c in Calls(od1, od2, z)) == Leaves(Init(od1, od2, z, suppliedId).s)
  {
    UnionLeaves2(LoftSegment(od1, od2), UpperSegment(od2, z));
    UnionLeaves2(Union([LoftSegment(od1, od2), UpperSegment(od2, z)]), Lip(od2));
    var cs := Calls(od1, od2, z);
    assert Leaves(LoftSegment(od1, od2)) == {cs[0], cs[1], cs[2]};
    assert Leaves(UpperSegment(od2, z)) == {cs[3]};
    assert Leaves(Lip(od2)) == {cs[4]};
    assert Leaves(Pocket(od1 - Wall * 2.0, z)) == {cs[5]};
  }
}
